=== FILE: README.md ===
# Calendar service core, modelled in Dafny

The calendar service is a small CRUD web service. It stores calendar events and
serves them back in two forms: a filtered, ordered list, and a plain-text digest
meant for a language model. This project models the two pieces of real logic in
`app/main.py`.

- **The event store**, as a state machine over a finite map from integer id to
  `Event` (module `EventStore`, file `event_store.dfy`). Each event has a title,
  start, end, event type, optional location and creation time. The store has four
  operations:
  - `Create` validates the times, then inserts under a fresh id.
  - `Delete` removes one id, or reports not-found.
  - `Clear` empties the store and reports how many events it held.
  - `QueryCalendar` filters by optional bounds and orders by start time.

  `Create`, `Delete` and `Clear` return the new store together with a reply. An
  error reply leaves the store unchanged. `QueryCalendar` only reads the store and
  returns the matching rows.
- **The digest formatter** (module `Digest`, file `digest.dfy`). It works in three steps:
  - It resolves the default window.
  - It selects the events whose start lies inside the window.
  - It lays the digest out as a sequence of lines (`Plan`) and renders that
    sequence to text (`DigestText`). `Plan` carries the previous event's day as an
    accumulator, like the source loop does.

  `ChunksFrom` is an index-based reference definition. A lemma proves that the
  accumulator version agrees with it.

Supporting modules:
- `Timestamps` defines naive timestamps and the `%I:%M %p` clock. They are whole
  seconds since 0001-01-01T00:00:00, and the date component is `t / 86400`. A
  round-trip parser shows that the 12-hour rendering loses no information.
- `CivilDates` converts day counts to calendar dates. It follows the algorithm of
  Python's `datetime` (400/100/4/1-year cycles) and proves a round-trip. It also
  supplies the `%Y-%m-%d` and `%A, %B %d, %Y` renderings in the C locale.
- `Decimal` renders numbers in decimal and proves a parse round-trip.
- `Wrappers` holds `Option` and `Result`.

The current time is a parameter and is never read from a clock. `Create` takes
`now` as the creation stamp. `CalendarForLlm` takes `now` to build the default
window.

Facts of the code that the model keeps:
- The range query orders by start time only, so events with equal start times
  may come back in any order. The model states non-decreasing order, not strict
  order.
- The digest endpoint filters by start time only, inclusive at both ends. The end
  time of an event is not checked against the window.
- Nothing in the code rejects an empty title, so the model does not either.

## Model

| member | source | states |
|---|---|---|
| EventStore.Create | app/main.py:30-48 | Create fails exactly when end <= start. On failure the reply is the "end not after start" error and the store is unchanged. On success the store gains exactly one entry, under an id not previously present, carrying the input's title/start/end/type/location and the creation time. Every existing entry is unchanged. The store validity invariant (end > start) is preserved. |
| EventStore.AllocateId | app/models/database.py:16 | The integer primary key for a new row is at least 1, is not in use, and exceeds every id in use. |
| EventStore.Delete | app/main.py:51-60 | Delete fails with not-found exactly when the id is absent, and then the store is unchanged. Otherwise exactly that key is removed, every other entry keeps its event, the size drops by one, and the reply is "Event <id> deleted successfully". |
| EventStore.Clear | app/main.py:63-69 | The reported count equals the store's size before the call. The message embeds that count. Afterwards the store is empty. |
| EventStore.ClearThenNothingSelected | app/main.py:66-69 | After clearing, no filter selects any entry. |
| EventStore.CollectSelected | app/main.py:79-85 | The filtered scan returns rows that are current entries of the store under their own ids. It returns each accepted id exactly once and no other. |
| EventStore.SortByStart | app/main.py:86 | Ordering by start time returns a permutation (same multiset) of its input, sorted non-decreasingly by start. |
| EventStore.SelectSorted | app/main.py:79-86 | Filter-then-order returns exactly the accepted entries, each once, in non-decreasing start order. |
| EventStore.QueryCalendar | app/main.py:72-87 | The calendar query returns exactly the entries with start >= start_date (when given) and end <= end_date (when given), each once, sorted by start. With no bounds it returns the whole store. |
| Timestamps.DayOf | app/main.py:118 | Definition of `.date()` as a day count. Its meaning is stated by DayOfSpan. |
| Timestamps.DayOfSpan | app/main.py:118 | The date of a timestamp is the day whose 24-hour span contains it. |
| Timestamps.Clock12 | app/main.py:126-127 | The `%I:%M %p` text of a timestamp has 8 characters. That it parses back is stated by Clock12ReadBack. |
| Timestamps.Clock12ReadBack | app/main.py:126-127 | The `%I:%M %p` text of a timestamp parses back to that timestamp's hour and minute. |
| Timestamps.Midnight | app/main.py:101 | Midnight of `now` falls on the same day, at time 00:00:00, no later than `now` and less than a day before it. |
| Timestamps.Hour12 | app/main.py:126-127 | The `%I` hour lies in 1..12 and agrees with the 24-hour hour modulo 12, so 0 and 12 become 12 and 13 becomes 1. |
| Timestamps.Clock12Of | app/main.py:126-127 | `%I:%M %p` has 8 characters shaped `hh:mm AM` or `hh:mm PM`. The marker is AM exactly for hours before 12. |
| Timestamps.Clock12RoundTrip | app/main.py:126-127 | Parsing the 12-hour rendering back recovers the 24-hour hour and the minute, so 0 to 12 AM, 12 to 12 PM and 13 to 01 PM are all distinguished. |
| Timestamps.Clock12Examples | app/main.py:126-127 | Hour 0 renders as 12:00 AM, 12 as 12:00 PM, 13 as 01:00 PM and 23:59 as 11:59 PM. |
| Decimal.NatToString | app/main.py:69 | `str` of a count is at least one character, all digits, with no leading zero unless the count is 0. |
| Decimal.ParseNatToString | app/main.py:69 | The decimal rendering of the cleared count reads back as the same number. |
| Decimal.IntToString | app/main.py:60 | The id in the delete message is rendered with a leading '-' exactly for negative ids, followed by the digits of its magnitude. |
| Decimal.Pad2 | app/main.py:113 | Two-digit fields are exactly two digits and read back as the value. |
| CivilDates.FromDayNumber | app/main.py:118-122 | The date component of a timestamp is always a valid Gregorian date. |
| CivilDates.DayNumberRoundTrip | app/main.py:118-122 | Converting a day count to a calendar date and back returns the same day count, so distinct days give distinct dates. |
| CivilDates.Weekday | app/main.py:122 | The weekday behind `%A` is below 7. |
| CivilDates.WeekdayNext | app/main.py:122 | Day 0 (0001-01-01) is a Monday, and each following day is one weekday later, Sunday wrapping to Monday. |
| CivilDates.WeekdayName | app/main.py:122 | Definition of `%A` in the C locale, Monday first. That the names tell the weekdays apart is stated by WeekdayNamesDistinct. |
| CivilDates.MonthName | app/main.py:122 | Definition of `%B` in the C locale, January first. That the names tell the months apart is stated by MonthNamesDistinct. |
| CivilDates.WeekdayNamesDistinct | app/main.py:122 | The seven `%A` names of the C locale are pairwise distinct. |
| CivilDates.MonthNamesDistinct | app/main.py:122 | The twelve `%B` names of the C locale are pairwise distinct. |
| CivilDates.KickoffDateText | app/main.py:113 | Days 739319 and 739320 render as 2025-03-10 and 2025-03-11. |
| CivilDates.KickoffLongDate | app/main.py:122 | Day 739319 renders as "Monday, March 10, 2025". |
| Digest.ResolveWindow | app/main.py:99-103 | A given bound is kept. A missing start becomes midnight of `now`. A missing end becomes exactly 7 days after the (possibly defaulted) start, at the same time of day. |
| Digest.CalendarForLlm | app/main.py:90-138 | The digest is the rendering of the entries whose start lies in the resolved window (both ends inclusive, end time not checked), each once, in start order. It always begins with the title. It is title plus "No events scheduled for this period." exactly when no entry starts inside the window. |
| Digest.DigestText | app/main.py:113 | The digest always begins with `Calendar from <start date> to <end date>:` and a blank line, and has something after it. |
| Digest.DigestEmptyIff | app/main.py:135-136 | The body is the fixed "No events" line exactly when the selection is empty. A non-empty selection never yields it, because its body opens with a day header. |
| Digest.ItemsOfPlan | app/main.py:117-133 | The layout has exactly one event line per event, in input order. Its length is the number of events plus the number of headers. |
| Digest.PlanIsChunked | app/main.py:116-123 | A day header is put before event i exactly when i is the first event or its date differs from event i-1's date. This matches the index-based reference `ChunksFrom`. |
| Digest.HeadersPrecedeTheirDay | app/main.py:118-123 | Every day header is immediately followed by an event of that day. A non-empty digest opens with the first event's day header. |
| Digest.HeaderCountAfter | app/main.py:116-123 | On start-sorted input, the number of headers equals the number of distinct dates other than the day already current. |
| Digest.HeaderCountIsDistinctDays | app/main.py:105-123 | On start-sorted input, the number of day headers equals the number of distinct dates, and the layout has events plus distinct dates lines. |
| EventStore.ErrorDetail | app/main.py:56 | Each failure carries a non-empty detail text. "Event not found", the detail of the 404 reply, is the text of exactly the not-found error. The other text, that of create's 400 reply at line 35, differs from it. |
| EventStore.DeletedMessage | app/main.py:60 | The delete message is "Event ", the id, " deleted successfully". The middle field reads back as the deleted id, with a '-' exactly for negative ids. |
| EventStore.ClearedMessage | app/main.py:69 | The clear message is "Calendar cleared. ", the count, " events deleted.". The middle field is all digits and reads back as the count. |
| EventStore.InQueryRange | app/main.py:81-84 | With neither bound every event passes the filter. When both bounds are given and an event with end > start passes, the start bound lies strictly before the end bound. |
| CivilDates.IsoDate | app/main.py:113 | `%Y-%m-%d` has dashes in the two fixed places from the end, and its year, month and day fields read back as the date of that day. |
| CivilDates.IsoDateInjective | app/main.py:113 | Distinct days give distinct `%Y-%m-%d` texts. |
| CivilDates.LongDate | app/main.py:122 | `%A, %B %d, %Y` ends with the two-digit day of the month, ", " and the year, and both fields read back as the date's own. |
| Digest.InWindow | app/main.py:107 | An inverted window (end before start) selects nothing. An event in the window starts on a day between the window's first and last day. |
| Digest.Plan | app/main.py:116-133 | Definition of the layout loop. What it produces is stated by ItemsOfPlan, PlanIsChunked, HeadersPrecedeTheirDay and HeaderCountAfter. |
| Digest.EventLine | app/main.py:126-133 | An event line starts with "- " and ends with a newline. Its clock readings are stated by EventLineTimes. |
| Digest.Title | app/main.py:113 | The title starts with "Calendar from " and ends with ":" and a blank line. |
| Digest.TitleDates | app/main.py:113 | Between those, the title is the `%Y-%m-%d` text of the window's first day, " to ", and that of its last day. Each date field sits at a fixed place, so IsoDate's read-back applies to it. |
| Digest.DayHeaderLine | app/main.py:122-123 | A day header starts with "== " and ends with " ==" and a newline. |
| Digest.DayHeaderDate | app/main.py:122-123 | Between those brackets a day header carries the `%A, %B %d, %Y` text of its day, whose day-of-month and year fields read back. |
| Digest.LocationSuffix | app/main.py:131-132 | The ` at <location>` suffix is empty exactly when the location is None or "". Otherwise it is " at " followed by the location. |
| Digest.EventLineFields | app/main.py:130-133 | After the clock readings the line is ": ", the title, " (", the event type, ")", the location suffix and the newline, each at its stated place, and the length is 27 plus their lengths. |
| Digest.RenderLine | app/main.py:123-133 | Definition of one appended line. It always ends with a newline. The whole text is stated by DigestText and SingleEventDigest. |
| Digest.RenderLines | app/main.py:116-133 | Definition of the loop's appends in order. A non-empty layout's text starts with its first line's text. The whole text is stated by DigestText and SingleEventDigest. |
| Digest.SortedRowsSortedEvents | app/main.py:108 | Rows ordered by start time give events ordered by start time, so the layout lemmas apply to the rows the digest query returns. |
| Digest.EventLineTimes | app/main.py:125-133 | An event line starts with "- " and then the start and end clock readings, separated by " - ". Both readings parse back to the event's own hour and minute, and the line ends with a newline. |
| Digest.SingleEventDigest | app/main.py:113-133 | A one-event digest is the title, that event's day header, and its event line. |
| Digest.KickoffTimes | app/main.py:126-127 | A sample event on Monday 2025-03-10, 11:00 to 12:00 at Client HQ, falls on day 739319 and renders its times as 11:00 AM and 12:00 PM. |

## Left out

- HTTP transport. FastAPI routing, the HTML UI route, static mounts and templates (app/main.py:1-27) are framework glue. The HTTP status codes (400, 404) are also left out. Errors are the `Error` datatype, and `ErrorDetail` keeps their detail texts.
- Persistence. The SQLAlchemy engine, session, `get_db`, `init_db` and SQLite (app/models/database.py:6-10, 25-34) are replaced by the immutable map. Transactions and concurrent requests are not modelled.
- Input parsing. Pydantic parsing and validation of ISO timestamps (app/models/schemas.py) appear only as the shape of `EventInput` and `Row`.
- Clock reads. `datetime.now()` (app/main.py:101) and `datetime.utcnow` for `created_at` (app/models/database.py:22) are parameters. The source stamps creation in UTC but takes the default window from local time; the model takes both as naive timestamps supplied by the caller.
- Time zones and sub-second precision. Timestamps are whole seconds with no time zone. Microseconds, and the comparisons they could change, are not modelled.
- The `datetime` range. Timestamps are unbounded above. The OverflowError Python raises past year 9999 (for example from start + 7 days) is not modelled.
- Years before 1000. `%Y` is rendered as plain decimal without padding. That matches glibc, but the platform decides it.
- Locale. Weekday and month names are those of the C locale.
- EventStore.Create: validity (end > start) is proved for naive timestamps only. The source compares whatever `datetime` values Pydantic parsed. Two offset-aware values, such as start 10:00+05:00 and end 09:00+00:00, pass the check because they are compared as instants, yet SQLite stores them as wall-clock times 10:00 and 09:00, so the stored event ends before it starts. A naive bound mixed with an aware one raises a TypeError, which the framework returns as a server error. Neither case is modelled.
- EventStore.Delete: ids are unbounded integers. SQLite ids are 64-bit, and an `event_id` outside -2^63 to 2^63-1 makes the query at app/main.py:54 raise an OverflowError, which becomes a server error. The model returns `EventNotFound` for such an id instead.
- EventStore.AllocateId: the model takes one more than the largest id in use, or 1 if that is smaller, close to what SQLite does for an integer primary key (max + 1). Create's contract promises only freshness. SQLite's random fallback after the largest possible rowid is not modelled.
- EventStore.QueryCalendar: the order among events with equal start times is left unspecified, as the database leaves it. Only non-decreasing start order is stated.
- The mock-calendar seeding endpoint is not part of this model. Its source is not among the modelled files.

=== FILE: civil_dates.dfy ===
/** Proleptic Gregorian calendar dates, converted from day counts the way Python's
    `datetime` does (`_ord2ymd` / `_ymd2ord`), and the `strftime` renderings the
    calendar service uses: `%Y-%m-%d` and `%A, %B %d, %Y` in the C locale. */
module CivilDates {
  import opened Decimal

  datatype Date = Date(year: nat, month: nat, day: nat)

  const DaysIn400Years: nat := 146097
  const DaysIn100Years: nat := 36524
  const DaysIn4Years: nat := 1461

  predicate IsLeapYear(y: int) {
    y % 4 == 0 && (y % 100 != 0 || y % 400 == 0)
  }

  function DaysInMonth(y: nat, m: nat): (n: nat)
    requires 1 <= m <= 12
    ensures 28 <= n <= 31
  {
    if m == 2 then (if IsLeapYear(y) then 29 else 28)
    else if m == 4 || m == 6 || m == 9 || m == 11 then 30
    else 31
  }

  /** Days of year `y` before the first of month `m`; month 13 stands for the year's end. */
  function DaysBeforeMonth(y: nat, m: nat): (n: nat)
    requires 1 <= m <= 13
    ensures m == 13 ==> n == (if IsLeapYear(y) then 366 else 365)
  {
    [0, 31, 59, 90, 120, 151, 181, 212, 243, 273, 304, 334, 365][m - 1]
      + (if m > 2 && IsLeapYear(y) then 1 else 0)
  }

  /** Consecutive month starts are one month length apart. */
  lemma DaysBeforeNextMonth(y: nat, m: nat)
    requires 1 <= m <= 12
    ensures DaysBeforeMonth(y, m + 1) == DaysBeforeMonth(y, m) + DaysInMonth(y, m)
  {
  }

  /** Days from 0001-01-01 to January 1 of year `y`. */
  function DaysBeforeYear(y: nat): nat
    requires y >= 1
  {
    var p := y - 1;
    p * 365 + p / 4 - p / 100 + p / 400
  }

  predicate ValidDate(d: Date) {
    d.year >= 1 && 1 <= d.month <= 12 && 1 <= d.day <= DaysInMonth(d.year, d.month)
  }

  /** Days from 0001-01-01 to `d` (Python's `toordinal()` minus one). */
  function ToDayNumber(d: Date): nat
    requires ValidDate(d)
  {
    DaysBeforeYear(d.year) + DaysBeforeMonth(d.year, d.month) + d.day - 1
  }

  /** The month containing day `doy` (0-based) of year `y`, searching upwards from `m`. */
  function MonthOfDay(y: nat, doy: nat, m: nat): (r: nat)
    requires 1 <= m <= 12
    requires DaysBeforeMonth(y, m) <= doy < DaysBeforeMonth(y, 13)
    ensures m <= r <= 12
    ensures DaysBeforeMonth(y, r) <= doy < DaysBeforeMonth(y, r + 1)
    decreases 12 - m
  {
    DaysBeforeNextMonth(y, m);
    if m == 12 || doy < DaysBeforeMonth(y, m + 1) then m else MonthOfDay(y, doy, m + 1)
  }

  /** A day count split into whole 400-, 100-, 4- and 1-year cycles and a day of year. */
  datatype Cycles = Cycles(n400: nat, n100: nat, n4: nat, n1: nat, doy: nat)

  function CycleSplit(n: nat): (c: Cycles)
    ensures n == c.n400 * DaysIn400Years + c.n100 * DaysIn100Years + c.n4 * DaysIn4Years + c.n1 * 365 + c.doy
    ensures c.n100 <= 4 && c.n4 <= 24 && c.n1 <= 4 && c.doy < 365
    ensures c.n100 == 4 ==> c.n4 == 0 && c.n1 == 0 && c.doy == 0
    ensures c.n1 == 4 ==> c.doy == 0 && c.n4 <= 23
  {
    var r400 := n % DaysIn400Years;
    var r100 := r400 % DaysIn100Years;
    var r4 := r100 % DaysIn4Years;
    Cycles(n / DaysIn400Years, r400 / DaysIn100Years, r100 / DaysIn4Years, r4 / 365, r4 % 365)
  }

  /** The year a cycle split lands in, before the end-of-cycle correction. */
  function CycleYear(c: Cycles): nat {
    c.n400 * 400 + c.n100 * 100 + c.n4 * 4 + c.n1 + 1
  }

  /** The date `n` days after 0001-01-01 (Python's `date.fromordinal(n + 1)`). */
  function FromDayNumber(n: nat): (d: Date)
    ensures ValidDate(d)
  {
    var c := CycleSplit(n);
    var year := CycleYear(c);
    if c.n1 == 4 || c.n100 == 4 then
      // the last day of a leap year closing a 4- or 400-year cycle
      Date(year - 1, 12, 31)
    else
      var m := MonthOfDay(year, c.doy, 1);
      Date(year, m, c.doy - DaysBeforeMonth(year, m) + 1)
  }

  lemma DivFromBounds(x: int, k: int, q: int)
    requires k == 4 || k == 100 || k == 400
    requires q * k <= x < q * k + k
    ensures x / k == q
  {
    if k == 4 {
      assert x / 4 == q;
    } else if k == 100 {
      assert x / 100 == q;
    } else {
      assert x / 400 == q;
    }
  }

  /** The cycle decomposition of a year count, as the inverse of `FromDayNumber` uses it. */
  lemma DaysBeforeYearCycles(a: nat, b: nat, c: nat, e: nat)
    requires b <= 3 && c <= 24 && e <= 3
    ensures DaysBeforeYear(a * 400 + b * 100 + c * 4 + e + 1)
         == a * DaysIn400Years + b * DaysIn100Years + c * DaysIn4Years + e * 365
  {
    var p := a * 400 + b * 100 + c * 4 + e;
    DivFromBounds(p, 4, a * 100 + b * 25 + c);
    DivFromBounds(p, 100, a * 4 + b);
    DivFromBounds(p, 400, a);
  }

  /** Which years of a cycle decomposition are leap years. */
  lemma LeapYearCycles(a: nat, b: nat, c: nat, e: nat)
    requires b <= 3 && c <= 24 && e <= 3
    ensures IsLeapYear(a * 400 + b * 100 + c * 4 + e + 1) <==> e == 3 && (c != 24 || b == 3)
  {
    var y := a * 400 + b * 100 + c * 4 + e + 1;
    assert y == 4 * (a * 100 + b * 25 + c) + (e + 1);
    assert y == 100 * (a * 4 + b) + (c * 4 + e + 1);
    assert y == 400 * a + (b * 100 + c * 4 + e + 1);
    if e == 3 {
      DivFromBounds(y, 4, a * 100 + b * 25 + c + 1);
      if c == 24 {
        DivFromBounds(y, 100, a * 4 + b + 1);
        if b == 3 {
          DivFromBounds(y, 400, a + 1);
        } else {
          DivFromBounds(y, 400, a);
        }
      } else {
        DivFromBounds(y, 100, a * 4 + b);
      }
    } else {
      DivFromBounds(y, 4, a * 100 + b * 25 + c);
    }
  }

  /** Converting a day count to a date and back gives the day count again. */
  lemma DayNumberRoundTrip(n: nat)
    ensures ToDayNumber(FromDayNumber(n)) == n
  {
    var c := CycleSplit(n);
    var d := FromDayNumber(n);
    if c.n100 == 4 {
      assert d == Date(c.n400 * 400 + 400, 12, 31);
      DaysBeforeYearCycles(c.n400, 3, 24, 3);
      LeapYearCycles(c.n400, 3, 24, 3);
    } else if c.n1 == 4 {
      assert d == Date(c.n400 * 400 + c.n100 * 100 + c.n4 * 4 + 4, 12, 31);
      DaysBeforeYearCycles(c.n400, c.n100, c.n4, 3);
      LeapYearCycles(c.n400, c.n100, c.n4, 3);
    } else {
      DaysBeforeYearCycles(c.n400, c.n100, c.n4, c.n1);
      assert d.year == CycleYear(c);
    }
  }

  /** Python's `weekday()`: 0 is Monday; 0001-01-01 was a Monday. */
  function Weekday(day: nat): (w: nat)
    ensures w < 7
  {
    day % 7
  }

  /** One day later is one weekday later, wrapping from Sunday to Monday. */
  lemma WeekdayNext(day: nat)
    ensures Weekday(0) == 0
    ensures Weekday(day + 1) == (Weekday(day) + 1) % 7
  {
  }

  /** `%A` in the C locale. */
  function WeekdayName(w: nat): string
    requires w < 7
  {
    ["Monday", "Tuesday", "Wednesday", "Thursday", "Friday", "Saturday", "Sunday"][w]
  }

  /** `%B` in the C locale. */
  function MonthName(m: nat): string
    requires 1 <= m <= 12
  {
    ["January", "February", "March", "April", "May", "June", "July",
     "August", "September", "October", "November", "December"][m - 1]
  }

  /** Distinct weekdays have distinct names. */
  lemma WeekdayNamesDistinct(a: nat, b: nat)
    requires a < 7 && b < 7
    ensures WeekdayName(a) == WeekdayName(b) ==> a == b
  {
  }

  /** Distinct months have distinct names. */
  lemma MonthNamesDistinct(a: nat, b: nat)
    requires 1 <= a <= 12 && 1 <= b <= 12
    ensures MonthName(a) == MonthName(b) ==> a == b
  {
  }

  /** `strftime('%Y-%m-%d')` of the day `day`: year, month and day read back from their fields. */
  function IsoDate(day: nat): (s: string)
    ensures var d := FromDayNumber(day);
      && |s| >= 7 && s[|s| - 6] == '-' && s[|s| - 3] == '-'
      && IsDigits(s[..|s| - 6]) && ParseDigits(s[..|s| - 6]) == d.year
      && IsDigits(s[|s| - 5..|s| - 3]) && ParseDigits(s[|s| - 5..|s| - 3]) == d.month
      && IsDigits(s[|s| - 2..]) && ParseDigits(s[|s| - 2..]) == d.day
  {
    var d := FromDayNumber(day);
    var year := NatToString(d.year);
    ParseNatToString(d.year);
    var s := year + "-" + Pad2(d.month) + "-" + Pad2(d.day);
    assert s[..|s| - 6] == year;
    assert s[|s| - 5..|s| - 3] == Pad2(d.month);
    assert s[|s| - 2..] == Pad2(d.day);
    s
  }

  /** Distinct days have distinct `%Y-%m-%d` renderings. */
  lemma IsoDateInjective(a: nat, b: nat)
    ensures IsoDate(a) == IsoDate(b) ==> a == b
  {
    if IsoDate(a) == IsoDate(b) {
      assert FromDayNumber(a) == FromDayNumber(b);
      DayNumberRoundTrip(a);
      DayNumberRoundTrip(b);
    }
  }

  /** The last three fields of `head + day2 + ", " + year`, counting from the end, read back
      as the numbers they were rendered from. */
  lemma FieldsAtEnd(head: string, day2: string, year: string, dd: nat, yy: nat)
    requires |day2| == 2
    requires IsDigits(day2) && ParseDigits(day2) == dd
    requires IsDigits(year) && ParseDigits(year) == yy
    ensures var s := head + day2 + ", " + year; var n := |year|;
      && |s| >= n + 4 && s[|s| - n - 2..|s| - n] == ", "
      && IsDigits(s[|s| - n..]) && ParseDigits(s[|s| - n..]) == yy
      && IsDigits(s[|s| - n - 4..|s| - n - 2]) && ParseDigits(s[|s| - n - 4..|s| - n - 2]) == dd
  {
    var s := head + day2 + ", " + year;
    var n := |year|;
    assert s[|s| - n..] == year;
    assert s[|s| - n - 4..|s| - n - 2] == day2;
  }

  /** `strftime('%A, %B %d, %Y')` of the day `day`: it ends with the two-digit day of the
      month, a comma and the year, each reading back as the date's own. */
  function LongDate(day: nat): (s: string)
    ensures var d := FromDayNumber(day); var n := |NatToString(d.year)|;
      && |s| >= n + 4 && s[|s| - n - 2..|s| - n] == ", "
      && IsDigits(s[|s| - n..]) && ParseDigits(s[|s| - n..]) == d.year
      && IsDigits(s[|s| - n - 4..|s| - n - 2]) && ParseDigits(s[|s| - n - 4..|s| - n - 2]) == d.day
  {
    var d := FromDayNumber(day);
    var year := NatToString(d.year);
    var day2 := Pad2(d.day);
    var head := WeekdayName(Weekday(day)) + ", " + MonthName(d.month) + " ";
    ParseNatToString(d.year);
    FieldsAtEnd(head, day2, year, d.day, d.year);
    head + day2 + ", " + year
  }

  /** The dates of a sample digest: Monday 2025-03-10 and the day after. */
  lemma KickoffDate()
    ensures FromDayNumber(739319) == Date(2025, 3, 10)
    ensures Weekday(739319) == 0
  {
    assert CycleSplit(739319) == Cycles(5, 0, 6, 0, 68);
    assert MonthOfDay(2025, 68, 1) == 3;
  }

  lemma KickoffNextDate()
    ensures FromDayNumber(739320) == Date(2025, 3, 11)
  {
    assert CycleSplit(739320) == Cycles(5, 0, 6, 0, 69);
    assert MonthOfDay(2025, 69, 1) == 3;
  }

  lemma KickoffDateText()
    ensures IsoDate(739319) == "2025-03-10"
    ensures IsoDate(739320) == "2025-03-11"
  {
    KickoffDate();
    KickoffNextDate();
    assert NatToString(2025) == "2025";
    assert Pad2(3) == "03" && Pad2(10) == "10" && Pad2(11) == "11";
  }

  lemma KickoffLongDate()
    ensures LongDate(739319) == "Monday, March 10, 2025"
  {
    KickoffDate();
  }
}

=== FILE: decimal.dfy ===
/** Decimal rendering of natural numbers, as Python's `str(n)` and the zero-padded
    two-digit fields of `strftime` (`%m`, `%d`, `%I`, `%M`) produce it. */
module Decimal {

  /** The ASCII digit for a value below ten. */
  function DigitChar(d: nat): (c: char)
    requires d < 10
    ensures '0' <= c <= '9'
    ensures c as int - '0' as int == d
  {
    ('0' as int + d) as char
  }

  /** The value of an ASCII digit. */
  function DigitValue(c: char): (d: nat)
    requires '0' <= c <= '9'
    ensures d < 10
  {
    c as int - '0' as int
  }

  predicate IsDigits(s: string) {
    forall i :: 0 <= i < |s| ==> '0' <= s[i] <= '9'
  }

  /** Shortest decimal representation of `n`: at least one digit, no leading zero. */
  function NatToString(n: nat): (s: string)
    ensures |s| >= 1
    ensures IsDigits(s)
    ensures n > 0 ==> s[0] != '0'
    decreases n
  {
    if n < 10 then [DigitChar(n)] else NatToString(n / 10) + [DigitChar(n % 10)]
  }

  /** The value of a string of decimal digits (most significant first). */
  function ParseDigits(s: string): nat
    requires IsDigits(s)
  {
    if s == [] then 0 else ParseDigits(s[..|s| - 1]) * 10 + DigitValue(s[|s| - 1])
  }

  /** Reading back a rendered number yields the number. */
  lemma {:induction false} ParseNatToString(n: nat)
    ensures ParseDigits(NatToString(n)) == n
    decreases n
  {
    if n >= 10 {
      var s := NatToString(n);
      ParseNatToString(n / 10);
      assert s[..|s| - 1] == NatToString(n / 10);
    }
  }

  /** Two digits, zero-padded, as `strftime` renders hours, minutes, months and days. */
  function Pad2(n: nat): (s: string)
    requires n < 100
    ensures |s| == 2 && IsDigits(s)
    ensures ParseDigits(s) == n
  {
    var s := [DigitChar(n / 10), DigitChar(n % 10)];
    assert s[..1] == [DigitChar(n / 10)];
    assert s[..0] == [];
    assert ParseDigits(s[..1]) == n / 10;
    s
  }

  /** Python's `str(i)` for a possibly negative integer. */
  function IntToString(i: int): (s: string)
    ensures |s| >= 1
    ensures s[0] == '-' <==> i < 0
    ensures i < 0 ==> s[1..] == NatToString(-i)
    ensures i >= 0 ==> s == NatToString(i)
  {
    if i < 0 then "-" + NatToString(-i) else NatToString(i)
  }
}

=== FILE: digest.dfy ===
/** The plain-text calendar digest served for language-model consumption: window
    defaults, selection of events by start time, and the day-grouped rendering. */
module Digest {
  import opened Wrappers
  import opened Decimal
  import opened Timestamps
  import opened CivilDates
  import opened EventStore

  const Week: nat := 7 * SecondsPerDay

  /** The reporting window, both ends inclusive. */
  datatype Window = Window(lo: Timestamp, hi: Timestamp)

  /** Missing bounds: the start defaults to midnight of `now`, the end to one week
      after the (possibly defaulted) start. */
  function ResolveWindow(now: Timestamp, startDate: Option<Timestamp>, endDate: Option<Timestamp>): (w: Window)
    ensures startDate.Some? ==> w.lo == startDate.value
    ensures startDate.None? ==> w.lo % SecondsPerDay == 0 && w.lo <= now && DayOf(w.lo) == DayOf(now)
    ensures endDate.Some? ==> w.hi == endDate.value
    ensures endDate.None? ==> DayOf(w.hi) == DayOf(w.lo) + 7 && w.hi % SecondsPerDay == w.lo % SecondsPerDay
  {
    var lo := startDate.GetOr(Midnight(now));
    var hi := endDate.GetOr(lo + Week);
    Window(lo, hi)
  }

  /** Only the start time is tested against the window; the end time is not. */
  predicate InWindow(w: Window, e: Event): (b: bool)
    ensures w.hi < w.lo ==> !b
    ensures b ==> DayOf(w.lo) <= DayOf(e.start) <= DayOf(w.hi)
  {
    w.lo <= e.start <= w.hi
  }

  /** The rows of the digest: all events starting inside the window, ordered by start. */
  predicate DigestSelection(s: Store, w: Window, rows: seq<Row>) {
    IsSortedSelection(s, e => InWindow(w, e), rows)
  }

  function EventsOf(rows: seq<Row>): (events: seq<Event>)
    ensures |events| == |rows|
    ensures forall i :: 0 <= i < |rows| ==> events[i] == rows[i].event
  {
    seq(|rows|, i requires 0 <= i < |rows| => rows[i].event)
  }

  predicate StartsSorted(events: seq<Event>) {
    forall i, j :: 0 <= i <= j < |events| ==> events[i].start <= events[j].start
  }

  // ---------------------------------------------------------------------------
  // Layout: the sequence of lines, before rendering to text

  /** A digest line: a day header, or one event. */
  datatype Line = DayHeader(day: nat) | Item(event: Event)

  /** The layout loop: walks the events remembering the day of the previous one, and puts a
      header before an event whose day differs from it (always before the first). */
  function Plan(events: seq<Event>, current: Option<nat>): (lines: seq<Line>)
    decreases |events|
  {
    if events == [] then []
    else
      var day := DayOf(events[0].start);
      (if current == Some(day) then [] else [DayHeader(day)]) + [Item(events[0])] + Plan(events[1..], Some(day))
  }

  /** The events of the item lines, in order. */
  function Items(lines: seq<Line>): seq<Event> {
    if lines == [] then []
    else (if lines[0].Item? then [lines[0].event] else []) + Items(lines[1..])
  }

  function HeaderCount(lines: seq<Line>): nat {
    if lines == [] then 0
    else (if lines[0].DayHeader? then 1 else 0) + HeaderCount(lines[1..])
  }

  lemma {:induction false} ItemsAppend(a: seq<Line>, b: seq<Line>)
    ensures Items(a + b) == Items(a) + Items(b)
    ensures HeaderCount(a + b) == HeaderCount(a) + HeaderCount(b)
    decreases |a|
  {
    if a == [] {
      assert a + b == b;
    } else {
      assert (a + b)[0] == a[0];
      assert (a + b)[1..] == a[1..] + b;
      ItemsAppend(a[1..], b);
    }
  }

  /** One item line per event, in input order. */
  lemma {:induction false} ItemsOfPlan(events: seq<Event>, current: Option<nat>)
    ensures Items(Plan(events, current)) == events
    ensures |Plan(events, current)| == |events| + HeaderCount(Plan(events, current))
    decreases |events|
  {
    if events != [] {
      var day := DayOf(events[0].start);
      var head := (if current == Some(day) then [] else [DayHeader(day)]) + [Item(events[0])];
      ItemsOfPlan(events[1..], Some(day));
      ItemsAppend(head, Plan(events[1..], Some(day)));
      if current != Some(day) {
        ItemsAppend([DayHeader(day)], [Item(events[0])]);
      }
      assert events == [events[0]] + events[1..];
    }
  }

  /** Index-based reference: event `i` opens a new day when it is the first event or its
      day differs from that of event `i - 1`. */
  predicate StartsNewDay(events: seq<Event>, i: nat)
    requires i < |events|
  {
    i == 0 || DayOf(events[i - 1].start) != DayOf(events[i].start)
  }

  function Chunk(events: seq<Event>, i: nat): seq<Line>
    requires i < |events|
  {
    (if StartsNewDay(events, i) then [DayHeader(DayOf(events[i].start))] else []) + [Item(events[i])]
  }

  function ChunksFrom(events: seq<Event>, i: nat): seq<Line>
    requires i <= |events|
    decreases |events| - i
  {
    if i == |events| then [] else Chunk(events, i) + ChunksFrom(events, i + 1)
  }

  lemma {:induction false} PlanSuffixIsChunked(events: seq<Event>, i: nat)
    requires 0 < i <= |events|
    ensures Plan(events[i..], Some(DayOf(events[i - 1].start))) == ChunksFrom(events, i)
    decreases |events| - i
  {
    if i < |events| {
      assert events[i..][1..] == events[i + 1..];
      PlanSuffixIsChunked(events, i + 1);
    }
  }

  /** The accumulator loop agrees with the index-based reference: a header precedes event
      `i` exactly when `StartsNewDay(events, i)`. */
  lemma PlanIsChunked(events: seq<Event>)
    ensures Plan(events, None) == ChunksFrom(events, 0)
  {
    if events != [] {
      PlanSuffixIsChunked(events, 1);
    }
  }

  /** Every header is immediately followed by an event of that very day. */
  predicate HeadersWellPlaced(p: seq<Line>) {
    forall j :: 0 <= j < |p| && p[j].DayHeader? ==>
      j + 1 < |p| && p[j + 1].Item? && DayOf(p[j + 1].event.start) == p[j].day
  }

  /** Headers are well placed, and a non-empty layout opens with the header of its first
      event's day. */
  lemma {:induction false} HeadersPrecedeTheirDay(events: seq<Event>, current: Option<nat>)
    ensures HeadersWellPlaced(Plan(events, current))
    ensures events != [] && current.None? ==> Plan(events, current)[0] == DayHeader(DayOf(events[0].start))
    decreases |events|
  {
    if events != [] {
      var day := DayOf(events[0].start);
      HeadersPrecedeTheirDay(events[1..], Some(day));
      var rest := Plan(events[1..], Some(day));
      var p := Plan(events, current);
      var k := if current == Some(day) then 1 else 2;
      assert p == (if current == Some(day) then [] else [DayHeader(day)]) + [Item(events[0])] + rest;
      assert |p| == |rest| + k;
      forall j | 0 <= j < |p| && p[j].DayHeader?
        ensures j + 1 < |p| && p[j + 1].Item? && DayOf(p[j + 1].event.start) == p[j].day
      {
        if j >= k {
          assert p[j] == rest[j - k];
          assert rest[j - k].DayHeader?;
          assert j - k + 1 < |rest|;
          assert p[j + 1] == rest[j - k + 1];
        } else {
          assert j == 0 && k == 2 && p[1] == Item(events[0]);
        }
      }
    }
  }

  function DaysOf(events: seq<Event>): set<nat> {
    set e | e in events :: DayOf(e.start)
  }

  /** Every event falls on day `d` or later. */
  predicate NoEarlierThan(events: seq<Event>, d: nat) {
    forall e :: e in events ==> d <= DayOf(e.start)
  }

  /** The day already current before the loop reaches `events`, as a set. */
  function Without(current: Option<nat>): set<nat> {
    if current.Some? then {current.value} else {}
  }

  /** The events after the first of a sorted sequence are sorted and fall on no earlier day. */
  lemma SortedTail(events: seq<Event>)
    requires events != [] && StartsSorted(events)
    ensures StartsSorted(events[1..])
    ensures NoEarlierThan(events[1..], DayOf(events[0].start))
  {
    var tail := events[1..];
    forall e | e in tail
      ensures DayOf(events[0].start) <= DayOf(e.start)
    {
      var k :| 0 <= k < |tail| && tail[k] == e;
      assert events[k + 1] == e;
      DayOfMonotone(events[0].start, e.start);
    }
    forall i, j | 0 <= i <= j < |tail|
      ensures tail[i].start <= tail[j].start
    {
      assert tail[i] == events[i + 1] && tail[j] == events[j + 1];
    }
  }

  lemma DaysOfCons(events: seq<Event>)
    requires events != []
    ensures DaysOf(events) == {DayOf(events[0].start)} + DaysOf(events[1..])
  {
    assert events == [events[0]] + events[1..];
    assert forall e :: e in events <==> e == events[0] || e in events[1..];
  }

  /** The later days of a sorted sequence are no earlier than its first day. */
  lemma TailDaysNoEarlier(events: seq<Event>)
    requires events != [] && StartsSorted(events)
    ensures forall x :: x in DaysOf(events[1..]) ==> DayOf(events[0].start) <= x
  {
    SortedTail(events);
  }

  /** One step of the layout loop: at most one header, then the event's own line. */
  lemma PlanStep(events: seq<Event>, current: Option<nat>)
    requires events != []
    ensures var day := DayOf(events[0].start);
      HeaderCount(Plan(events, current))
        == (if current == Some(day) then 0 else 1) + HeaderCount(Plan(events[1..], Some(day)))
  {
    var day := DayOf(events[0].start);
    var rest := Plan(events[1..], Some(day));
    ItemsAppend([Item(events[0])], rest);
    if current != Some(day) {
      assert Plan(events, current) == [DayHeader(day)] + ([Item(events[0])] + rest);
      ItemsAppend([DayHeader(day)], [Item(events[0])] + rest);
    }
  }

  /** Splitting `day` off a set of days no earlier than it: removing `day` itself leaves
      the rest; removing nothing or an earlier day keeps `day` and counts it once. */
  lemma DaysStep(all: set<nat>, later: set<nat>, day: nat, without: set<nat>)
    requires all == {day} + later
    requires forall x :: x in later ==> day <= x
    requires without == {day} || forall x :: x in without ==> x < day
    ensures |all - without| == (if without == {day} then 0 else 1) + |later - {day}|
  {
    if without == {day} {
      assert all - without == later - {day};
    } else {
      assert all - without == {day} + (later - {day});
    }
  }

  /** The excluded set is either the first event's day or lies wholly before it. */
  lemma WithoutBeforeFirst(events: seq<Event>, current: Option<nat>)
    requires events != []
    requires current.Some? ==> NoEarlierThan(events, current.value)
    ensures var day := DayOf(events[0].start);
      (Without(current) == {day}) == (current == Some(day))
    ensures var day := DayOf(events[0].start);
      Without(current) == {day} || forall x :: x in Without(current) ==> x < day
  {
    var day := DayOf(events[0].start);
    if current.Some? && current.value != day {
      assert events[0] in events;
      assert day !in Without(current);
    }
  }

  /** The day count of one loop step: the first event's day is new unless already current. */
  lemma DaysCount(events: seq<Event>, current: Option<nat>)
    requires events != [] && StartsSorted(events)
    requires current.Some? ==> NoEarlierThan(events, current.value)
    ensures var day := DayOf(events[0].start);
      |DaysOf(events) - Without(current)|
        == (if current == Some(day) then 0 else 1) + |DaysOf(events[1..]) - {day}|
  {
    TailDaysNoEarlier(events);
    DaysOfCons(events);
    WithoutBeforeFirst(events, current);
    DaysStep(DaysOf(events), DaysOf(events[1..]), DayOf(events[0].start), Without(current));
  }

  lemma {:induction false} HeaderCountAfter(events: seq<Event>, current: Option<nat>)
    requires StartsSorted(events)
    requires current.Some? ==> NoEarlierThan(events, current.value)
    ensures HeaderCount(Plan(events, current)) == |DaysOf(events) - Without(current)|
    decreases |events|
  {
    if events != [] {
      var day := DayOf(events[0].start);
      SortedTail(events);
      HeaderCountAfter(events[1..], Some(day));
      PlanStep(events, current);
      DaysCount(events, current);
    }
  }

  /** On events sorted by start time, one header per distinct date. */
  lemma HeaderCountIsDistinctDays(events: seq<Event>)
    requires StartsSorted(events)
    ensures HeaderCount(Plan(events, None)) == |DaysOf(events)|
    ensures |Plan(events, None)| == |events| + |DaysOf(events)|
  {
    HeaderCountAfter(events, None);
    ItemsOfPlan(events, None);
  }

  // ---------------------------------------------------------------------------
  // Rendering

  /** The location suffix: present only for a non-empty location. */
  function LocationSuffix(location: Option<string>): (s: string)
    ensures s == "" <==> location.None? || location.value == ""
    ensures s != "" ==> s == " at " + location.value
  {
    if location.Some? && location.value != "" then " at " + location.value else ""
  }

  function EventLine(e: Event): (s: string)
    ensures |s| >= 27 && s[..2] == "- " && s[|s| - 1] == '\n'
  {
    "- " + Clock12(e.start) + " - " + Clock12(e.end) + ": " + e.title + " (" + e.eventType + ")"
      + LocationSuffix(e.location) + "\n"
  }

  /** An event line names the start and end time of day recoverably, and ends the line. */
  lemma EventLineTimes(e: Event)
    ensures var line := EventLine(e);
      && |line| > 21
      && line[..2] == "- " && line[10..13] == " - "
      && ParseClock12(line[2..10]) == Some((HourOf(e.start), MinuteOf(e.start)))
      && ParseClock12(line[13..21]) == Some((HourOf(e.end), MinuteOf(e.end)))
      && line[|line| - 1] == '\n'
  {
    var line := EventLine(e);
    assert line[2..10] == Clock12(e.start);
    assert line[13..21] == Clock12(e.end);
    Clock12RoundTrip(HourOf(e.start), MinuteOf(e.start));
    Clock12RoundTrip(HourOf(e.end), MinuteOf(e.end));
  }

  /** After the clock readings an event line carries `: <title> (<type>)`, then the location
      suffix, then the newline. */
  lemma EventLineFields(e: Event)
    ensures var line := EventLine(e); var t := |e.title|; var k := |e.eventType|;
      && |line| == 27 + t + k + |LocationSuffix(e.location)|
      && line[21..23] == ": "
      && line[23..23 + t] == e.title
      && line[23 + t..25 + t] == " ("
      && line[25 + t..25 + t + k] == e.eventType
      && line[25 + t + k] == ')'
      && line[26 + t + k..|line| - 1] == LocationSuffix(e.location)
  {
    TextFields("- " + Clock12(e.start) + " - " + Clock12(e.end), e.title, e.eventType, LocationSuffix(e.location));
  }

  /** Where the title, type and suffix sit after a 21-character prefix. */
  lemma TextFields(prefix: string, title: string, kind: string, suffix: string)
    requires |prefix| == 21
    ensures var line := prefix + ": " + title + " (" + kind + ")" + suffix + "\n";
      var t := |title|; var k := |kind|;
      && |line| == 27 + t + k + |suffix|
      && line[21..23] == ": "
      && line[23..23 + t] == title
      && line[23 + t..25 + t] == " ("
      && line[25 + t..25 + t + k] == kind
      && line[25 + t + k] == ')'
      && line[26 + t + k..|line| - 1] == suffix
  {
    var line := prefix + ": " + title + " (" + kind + ")" + suffix + "\n";
    var t := |title|;
    var k := |kind|;
    assert line[23..23 + t] == title;
    assert line[25 + t..25 + t + k] == kind;
    assert line[26 + t + k..|line| - 1] == suffix;
  }

  /** The ordering of rows by start is the ordering of their events by start. */
  lemma SortedRowsSortedEvents(rows: seq<Row>)
    requires SortedByStart(rows)
    ensures StartsSorted(EventsOf(rows))
  {
  }

  /** The `== <long date> ==` line opening a day's group. */
  function DayHeaderLine(day: nat): (s: string)
    ensures |s| >= 7 && s[..3] == "== " && s[|s| - 4..] == " ==\n"
  {
    "== " + LongDate(day) + " ==\n"
  }

  /** Between its brackets a day header carries the long date of its day. */
  lemma DayHeaderDate(day: nat)
    ensures var s := DayHeaderLine(day); s[3..|s| - 4] == LongDate(day)
  {
    var s := DayHeaderLine(day);
    assert s[3..|s| - 4] == LongDate(day);
  }

  function RenderLine(line: Line): (s: string)
    ensures |s| >= 1 && s[|s| - 1] == '\n'
  {
    match line
    case DayHeader(day) => DayHeaderLine(day)
    case Item(e) => EventLine(e)
  }

  function RenderLines(lines: seq<Line>): (s: string)
    ensures lines != [] ==> |s| >= 1 && s[0] == RenderLine(lines[0])[0]
  {
    if lines == [] then "" else RenderLine(lines[0]) + RenderLines(lines[1..])
  }

  function Title(w: Window): (s: string)
    ensures |s| >= 31 && s[..14] == "Calendar from " && s[|s| - 3..] == ":\n\n"
  {
    "Calendar from " + IsoDate(DayOf(w.lo)) + " to " + IsoDate(DayOf(w.hi)) + ":\n\n"
  }

  /** The title carries the `%Y-%m-%d` texts of the window's first and last days at fixed
      places, so `IsoDate`'s read-back applies to each. */
  lemma TitleDates(w: Window)
    ensures var s := Title(w); var from := IsoDate(DayOf(w.lo)); var to := IsoDate(DayOf(w.hi));
      && |s| == 21 + |from| + |to|
      && s[14..14 + |from|] == from
      && s[14 + |from|..18 + |from|] == " to "
      && s[|s| - 3 - |to|..|s| - 3] == to
  {
    TitleFields(IsoDate(DayOf(w.lo)), IsoDate(DayOf(w.hi)));
  }

  /** Where the two dates sit in the title text. */
  lemma TitleFields(from: string, to: string)
    requires |from| >= 7 && |to| >= 7
    ensures var s := "Calendar from " + from + " to " + to + ":\n\n";
      && |s| == 21 + |from| + |to| && s[..14] == "Calendar from " && s[|s| - 3..] == ":\n\n"
      && s[14..14 + |from|] == from
      && s[14 + |from|..18 + |from|] == " to "
      && s[|s| - 3 - |to|..|s| - 3] == to
  {
    var s := "Calendar from " + from + " to " + to + ":\n\n";
    assert s[14..14 + |from|] == from;
    assert s[14 + |from|..18 + |from|] == " to ";
    assert s[|s| - 3 - |to|..|s| - 3] == to;
  }

  const NoEventsLine: string := "No events scheduled for this period.\n"

  /** The digest text for a window and the events selected for it (already ordered). */
  function DigestText(w: Window, events: seq<Event>): (text: string)
    ensures |text| > |Title(w)| && text[..|Title(w)|] == Title(w)
  {
    var body := if events == [] then NoEventsLine else RenderLines(Plan(events, None));
    assert events != [] ==> Plan(events, None) != [];
    Title(w) + body
  }

  /** The fixed "no events" body appears exactly when there are no events. */
  lemma DigestEmptyIff(w: Window, events: seq<Event>)
    ensures DigestText(w, events) == Title(w) + NoEventsLine <==> events == []
  {
    if events != [] {
      HeadersPrecedeTheirDay(events, None);
      var body := RenderLines(Plan(events, None));
      assert body[0] == '=';
      assert (Title(w) + body)[|Title(w)|] == body[0];
      assert (Title(w) + NoEventsLine)[|Title(w)|] == 'N';
    }
  }

  /** `GET /api/calendar/llm`: resolves the window, selects the events starting inside it
      ordered by start time, and renders the digest. */
  method CalendarForLlm(s: Store, now: Timestamp, startDate: Option<Timestamp>, endDate: Option<Timestamp>)
    returns (text: string)
    ensures var w := ResolveWindow(now, startDate, endDate);
      exists rows :: DigestSelection(s, w, rows) && text == DigestText(w, EventsOf(rows))
    ensures var w := ResolveWindow(now, startDate, endDate);
      text[..|Title(w)|] == Title(w) && (text == Title(w) + NoEventsLine <==> forall id :: id in s ==> !InWindow(w, s[id]))
  {
    var w := ResolveWindow(now, startDate, endDate);
    var rows := SelectSorted(s, e => InWindow(w, e));
    text := DigestText(w, EventsOf(rows));
    assert DigestSelection(s, w, rows);
    DigestEmptyIff(w, EventsOf(rows));
    if rows != [] {
      assert rows[0] in rows;
      assert rows[0].id in Selected(s, e => InWindow(w, e));
    } else {
      assert Selected(s, e => InWindow(w, e)) == {};
      assert forall id :: id in s ==> id !in Selected(s, e => InWindow(w, e));
    }
  }

  const KickoffEvent: Event := Event("Kickoff", 63877201200, 63877204800, "work", Some("Client HQ"), 0)

  /** A sample digest: one event on Monday 2025-03-10, 11:00 to 12:00 at "Client HQ":
      its day, the window's days and the two clock readings. Together with
      `SingleEventDigest` and `CivilDates.KickoffDateText` this fixes the sample's digest text. */
  lemma KickoffTimes()
    ensures DayOf(63877161600) == 739319 && DayOf(63877248000) == 739320
    ensures DayOf(KickoffEvent.start) == 739319
    ensures Clock12(KickoffEvent.start) == "11:00 AM"
    ensures Clock12(KickoffEvent.end) == "12:00 PM"
  {
    assert HourOf(KickoffEvent.start) == 11 && MinuteOf(KickoffEvent.start) == 0;
    assert HourOf(KickoffEvent.end) == 12 && MinuteOf(KickoffEvent.end) == 0;
    assert Pad2(11) == "11" && Pad2(12) == "12" && Pad2(0) == "00";
  }

  /** A digest of a single event is the title, that event's day header and its line. */
  lemma SingleEventDigest(w: Window, e: Event)
    ensures DigestText(w, [e]) == Title(w) + DayHeaderLine(DayOf(e.start)) + EventLine(e)
  {
    var day := DayOf(e.start);
    SingleEventPlan(e);
    RenderTwoLines(DayHeader(day), Item(e));
    assert DigestText(w, [e]) == Title(w) + RenderLines([DayHeader(day), Item(e)]);
  }

  lemma SingleEventPlan(e: Event)
    ensures Plan([e], None) == [DayHeader(DayOf(e.start)), Item(e)]
  {
    assert [e][1..] == [];
  }

  lemma RenderTwoLines(a: Line, b: Line)
    ensures RenderLines([a, b]) == RenderLine(a) + RenderLine(b)
  {
    var rb := RenderLine(b);
    assert RenderLines([b]) == rb by {
      assert [b][1..] == [];
      assert rb + "" == rb;
    }
    assert [a, b][1..] == [b];
  }
}

=== FILE: event_store.dfy ===
/** The event table as an abstract state machine: a finite map from id to event, with
    create, delete-by-id, clear and the range query of the calendar endpoint. The SQL
    session and the HTTP layer only transport these operations. */
module EventStore {
  import opened Wrappers
  import opened Decimal
  import opened Timestamps

  /** The body of a create request (`EventCreate`). */
  datatype EventInput = EventInput(
    title: string,
    start: Timestamp,
    end: Timestamp,
    eventType: string,
    location: Option<string>)

  /** A stored event: the table's columns other than the id. */
  datatype Event = Event(
    title: string,
    start: Timestamp,
    end: Timestamp,
    eventType: string,
    location: Option<string>,
    createdAt: Timestamp)

  /** A row as the API returns it (`EventResponse`): the id together with the event. */
  datatype Row = Row(id: int, event: Event)

  type Store = map<int, Event>

  datatype Error = EndNotAfterStart | EventNotFound

  /** What an operation leaves behind: the new store and the reply to the caller. */
  datatype Reply<T> = Reply(store: Store, result: Result<T, Error>)

  /** The `detail` text of the client error each failure is reported with. */
  function ErrorDetail(e: Error): (s: string)
    ensures |s| > 0
    ensures s == "Event not found" <==> e == EventNotFound
  {
    match e
    case EndNotAfterStart => "End time must be after start time"
    case EventNotFound => "Event not found"
  }

  /** Every stored event ends strictly after it starts. */
  predicate Valid(s: Store) {
    forall id :: id in s ==> s[id].start < s[id].end
  }

  /** Helper for the loops below: a non-empty set of ids has a member to pick. */
  lemma NonEmptyHasMember(ids: set<int>)
    requires ids != {}
    ensures exists id :: id in ids
  {
    if forall id :: id !in ids {
      assert false;
    }
  }

  /** The id the table assigns to a new row: one more than the largest id in use, and 1
      for an empty table, so never an id already present. */
  method AllocateId(s: Store) returns (id: int)
    ensures id !in s
    ensures id >= 1
    ensures forall k :: k in s ==> k < id
  {
    id := 1;
    var pending := s.Keys;
    while pending != {}
      invariant pending <= s.Keys
      invariant id >= 1
      invariant forall k :: k in s && k !in pending ==> k < id
      decreases |pending|
    {
      NonEmptyHasMember(pending);
      var k :| k in pending;
      if k >= id {
        id := k + 1;
      }
      pending := pending - {k};
    }
  }

  /** Create: rejects an end that is not after the start; otherwise inserts the event,
      stamped with `now` as its creation time, under a fresh id. */
  method Create(s: Store, input: EventInput, now: Timestamp) returns (r: Reply<Row>)
    ensures r.result.Failure? <==> input.end <= input.start
    ensures r.result.Failure? ==> r.result.error == EndNotAfterStart && r.store == s
    ensures r.result.Success? ==>
      var row := r.result.value;
      && row.id !in s
      && row.event == Event(input.title, input.start, input.end, input.eventType, input.location, now)
      && r.store.Keys == s.Keys + {row.id}
      && r.store[row.id] == row.event
      && (forall k :: k in s ==> r.store[k] == s[k])
      && |r.store| == |s| + 1
    ensures Valid(s) ==> Valid(r.store)
  {
    if input.end <= input.start {
      return Reply(s, Failure(EndNotAfterStart));
    }
    var id := AllocateId(s);
    var event := Event(input.title, input.start, input.end, input.eventType, input.location, now);
    r := Reply(s[id := event], Success(Row(id, event)));
  }

  /** The success message of delete; the id in its middle reads back as the deleted id. */
  function DeletedMessage(id: int): (s: string)
    ensures |s| > 27 && s[..6] == "Event " && s[|s| - 21..] == " deleted successfully"
    ensures var mid := s[6..|s| - 21];
      && (mid[0] == '-' <==> id < 0)
      && (id >= 0 ==> IsDigits(mid) && ParseDigits(mid) == id)
      && (id < 0 ==> IsDigits(mid[1..]) && ParseDigits(mid[1..]) == -id)
  {
    var digits := IntToString(id);
    ParseNatToString(if id >= 0 then id else -id);
    var s := "Event " + digits + " deleted successfully";
    assert s[6..|s| - 21] == digits;
    s
  }

  /** Delete-by-id: not-found leaves the store alone; otherwise exactly that entry goes. */
  function Delete(s: Store, id: int): (r: Reply<string>)
    ensures r.result.Failure? <==> id !in s
    ensures id !in s ==> r.store == s && r.result.error == EventNotFound
    ensures id in s ==>
      && r.store.Keys == s.Keys - {id}
      && (forall k :: k in r.store ==> r.store[k] == s[k])
      && |r.store| == |s| - 1
      && r.result.value == DeletedMessage(id)
    ensures Valid(s) ==> Valid(r.store)
  {
    if id !in s then Reply(s, Failure(EventNotFound))
    else Reply(s - {id}, Success(DeletedMessage(id)))
  }

  /** The reply to clear: how many events were removed, and the message reporting it. */
  datatype Cleared = Cleared(count: nat, message: string)

  /** The message of clear; the number in its middle reads back as the count. */
  function ClearedMessage(count: nat): (s: string)
    ensures |s| > 34 && s[..18] == "Calendar cleared. " && s[|s| - 16..] == " events deleted."
    ensures IsDigits(s[18..|s| - 16]) && ParseDigits(s[18..|s| - 16]) == count
  {
    var digits := NatToString(count);
    ParseNatToString(count);
    var s := "Calendar cleared. " + digits + " events deleted.";
    assert s[18..|s| - 16] == digits;
    s
  }

  /** Clear: empties the store and reports the number of events it held. */
  function Clear(s: Store): (r: Reply<Cleared>)
    ensures r.store == map[]
    ensures r.result.Success?
    ensures r.result.value.count == |s|
    ensures r.result.value.message == ClearedMessage(|s|)
  {
    Reply(map[], Success(Cleared(|s|, ClearedMessage(|s|))))
  }

  // ---------------------------------------------------------------------------
  // Filtered, ordered reads

  predicate SortedByStart(rows: seq<Row>) {
    forall i, j :: 0 <= i <= j < |rows| ==> rows[i].event.start <= rows[j].event.start
  }

  /** Every row is a current entry of the store, under its own id. */
  predicate RowsOf(s: Store, rows: seq<Row>) {
    forall row :: row in rows ==> row.id in s && s[row.id] == row.event
  }

  function IdsOf(rows: seq<Row>): set<int> {
    set row | row in rows :: row.id
  }

  /** The ids of the store whose events `keep` accepts. */
  function Selected(s: Store, keep: Event -> bool): set<int> {
    set id | id in s && keep(s[id])
  }

  /** `rows` lists each accepted entry of `s` exactly once, ordered by start time.
      The order among equal start times is left open. */
  predicate IsSortedSelection(s: Store, keep: Event -> bool, rows: seq<Row>) {
    && SortedByStart(rows)
    && RowsOf(s, rows)
    && IdsOf(rows) == Selected(s, keep)
    && |rows| == |Selected(s, keep)|
  }

  /** Where `x` goes in a sorted sequence: after every row starting earlier than it. */
  function InsertPosition(x: Row, rows: seq<Row>): (k: nat)
    requires SortedByStart(rows)
    ensures k <= |rows|
    ensures forall i :: 0 <= i < k ==> rows[i].event.start < x.event.start
    ensures forall i :: k <= i < |rows| ==> x.event.start <= rows[i].event.start
    decreases |rows|
  {
    if rows == [] || x.event.start <= rows[0].event.start then 0
    else 1 + InsertPosition(x, rows[1..])
  }

  function InsertByStart(x: Row, rows: seq<Row>): (r: seq<Row>)
    requires SortedByStart(rows)
    ensures SortedByStart(r)
    ensures multiset(r) == multiset(rows) + multiset{x}
  {
    var k := InsertPosition(x, rows);
    assert rows == rows[..k] + rows[k..];
    rows[..k] + [x] + rows[k..]
  }

  /** Ordering by start time: a sorted permutation of the input. */
  function SortByStart(rows: seq<Row>): (r: seq<Row>)
    ensures SortedByStart(r)
    ensures multiset(r) == multiset(rows)
    decreases |rows|
  {
    if rows == [] then []
    else
      assert rows == [rows[0]] + rows[1..];
      InsertByStart(rows[0], SortByStart(rows[1..]))
  }

  lemma SamePermutationSameRows(a: seq<Row>, b: seq<Row>)
    requires multiset(a) == multiset(b)
    ensures forall row :: row in a <==> row in b
    ensures IdsOf(a) == IdsOf(b)
    ensures |a| == |b|
  {
    assert forall row :: row in a <==> row in multiset(a);
    assert forall row :: row in b <==> row in multiset(b);
    assert |a| == |multiset(a)|;
  }

  /** Appending a current entry keeps the rows current and adds its id. */
  lemma AppendRow(s: Store, rows: seq<Row>, row: Row)
    requires RowsOf(s, rows)
    requires row.id in s && s[row.id] == row.event
    requires |rows| == |IdsOf(rows)| && row.id !in IdsOf(rows)
    ensures RowsOf(s, rows + [row])
    ensures IdsOf(rows + [row]) == IdsOf(rows) + {row.id}
    ensures |rows + [row]| == |IdsOf(rows + [row])|
  {
    assert forall x :: x in rows + [row] <==> x in rows || x == row;
  }

  /** Settling one more id of the scan adds it to the kept ids exactly when it is accepted. */
  lemma SelectedStep(s: Store, keep: Event -> bool, pending: set<int>, id: int)
    requires id in pending && id in s
    ensures Selected(s, keep) - (pending - {id})
         == (Selected(s, keep) - pending) + (if keep(s[id]) then {id} else {})
  {
  }

  /** After scanning all ids outside `pending`, `picked` holds each accepted one once. */
  predicate CollectedSoFar(s: Store, keep: Event -> bool, pending: set<int>, picked: seq<Row>) {
    && RowsOf(s, picked)
    && IdsOf(picked) == Selected(s, keep) - pending
    && |picked| == |IdsOf(picked)|
  }

  function CollectOne(s: Store, keep: Event -> bool, id: int, picked: seq<Row>): seq<Row>
    requires id in s
  {
    if keep(s[id]) then picked + [Row(id, s[id])] else picked
  }

  lemma CollectStep(s: Store, keep: Event -> bool, pending: set<int>, picked: seq<Row>, id: int)
    requires CollectedSoFar(s, keep, pending, picked)
    requires id in pending && id in s
    ensures CollectedSoFar(s, keep, pending - {id}, CollectOne(s, keep, id, picked))
  {
    SelectedStep(s, keep, pending, id);
    if keep(s[id]) {
      AppendRow(s, picked, Row(id, s[id]));
    }
  }

  /** Scans the table once and keeps, in scan order, the rows `keep` accepts. */
  method CollectSelected(s: Store, keep: Event -> bool) returns (picked: seq<Row>)
    ensures RowsOf(s, picked)
    ensures IdsOf(picked) == Selected(s, keep)
    ensures |picked| == |Selected(s, keep)|
  {
    picked := [];
    var pending := s.Keys;
    while pending != {}
      invariant pending <= s.Keys
      invariant CollectedSoFar(s, keep, pending, picked)
      decreases |pending|
    {
      NonEmptyHasMember(pending);
      var id :| id in pending;
      CollectStep(s, keep, pending, picked, id);
      picked := CollectOne(s, keep, id, picked);
      pending := pending - {id};
    }
  }

  /** Scans the table, keeps the rows `keep` accepts and orders them by start time. */
  method SelectSorted(s: Store, keep: Event -> bool) returns (rows: seq<Row>)
    ensures IsSortedSelection(s, keep, rows)
  {
    var picked := CollectSelected(s, keep);
    rows := SortByStart(picked);
    SamePermutationSameRows(rows, picked);
  }

  /** The filter of the calendar endpoint: start no earlier than `startDate` and end no
      later than `endDate`, each bound applying only when given. */
  predicate InQueryRange(e: Event, startDate: Option<Timestamp>, endDate: Option<Timestamp>): (b: bool)
    ensures startDate.None? && endDate.None? ==> b
    ensures b && e.start < e.end && startDate.Some? && endDate.Some? ==> startDate.value < endDate.value
  {
    && (startDate.Some? ==> startDate.value <= e.start)
    && (endDate.Some? ==> e.end <= endDate.value)
  }

  /** The calendar query: exactly the events within the given bounds, ordered by start;
      without bounds, the whole store. */
  method QueryCalendar(s: Store, startDate: Option<Timestamp>, endDate: Option<Timestamp>)
    returns (rows: seq<Row>)
    ensures IsSortedSelection(s, e => InQueryRange(e, startDate, endDate), rows)
    ensures forall i :: 0 <= i < |rows| ==> InQueryRange(rows[i].event, startDate, endDate)
    ensures startDate.None? && endDate.None? ==> IdsOf(rows) == s.Keys && |rows| == |s|
  {
    rows := SelectSorted(s, e => InQueryRange(e, startDate, endDate));
    assert forall i :: 0 <= i < |rows| ==> rows[i].id in IdsOf(rows);
    if startDate.None? && endDate.None? {
      assert Selected(s, e => InQueryRange(e, startDate, endDate)) == s.Keys;
    }
  }

  /** Clearing leaves nothing for any later query to return. */
  lemma ClearThenNothingSelected(s: Store, keep: Event -> bool)
    ensures Selected(Clear(s).store, keep) == {}
  {
  }
}

=== FILE: timestamps.dfy ===
/** Naive timestamps (no time zone) and the 12-hour clock rendering `%I:%M %p`. */
module Timestamps {
  import opened Decimal
  import opened Wrappers

  /** Seconds since 0001-01-01T00:00:00, the earliest Python `datetime`.
      Sub-second precision is not modelled. */
  type Timestamp = nat

  const SecondsPerMinute: nat := 60
  const SecondsPerHour: nat := 3600
  const SecondsPerDay: nat := 86400

  /** The date component, as a day count from 0001-01-01 (Python's ordinal minus one). */
  function DayOf(t: Timestamp): nat {
    t / SecondsPerDay
  }

  /** The date of `t` is the day whose 24-hour span contains `t`. */
  lemma DayOfSpan(t: Timestamp)
    ensures DayOf(t) * SecondsPerDay <= t < DayOf(t) * SecondsPerDay + SecondsPerDay
  {
  }

  function HourOf(t: Timestamp): (h: nat)
    ensures h < 24
  {
    (t % SecondsPerDay) / SecondsPerHour
  }

  function MinuteOf(t: Timestamp): (m: nat)
    ensures m < 60
  {
    (t % SecondsPerHour) / SecondsPerMinute
  }

  /** The start of the day `t` falls on (`replace(hour=0, minute=0, second=0, microsecond=0)`). */
  function Midnight(t: Timestamp): (m: Timestamp)
    ensures DayOf(m) == DayOf(t)
    ensures m % SecondsPerDay == 0
    ensures m <= t < m + SecondsPerDay
  {
    t - t % SecondsPerDay
  }

  /** Later instants never fall on an earlier day. */
  lemma DayOfMonotone(a: Timestamp, b: Timestamp)
    requires a <= b
    ensures DayOf(a) <= DayOf(b)
  {
  }

  /** The 12-hour-clock hour: 0 and 12 become 12, 13..23 become 1..11. */
  function Hour12(h: nat): (r: nat)
    requires h < 24
    ensures 1 <= r <= 12
    ensures r % 12 == h % 12
  {
    if h % 12 == 0 then 12 else h % 12
  }

  /** `%I:%M %p` for hour `h` and minute `m` of the day, e.g. "01:05 PM". */
  function Clock12Of(h: nat, m: nat): (s: string)
    requires h < 24 && m < 60
    ensures |s| == 8
    ensures s[2] == ':' && s[5] == ' ' && s[7] == 'M'
    ensures s[6] == (if h < 12 then 'A' else 'P')
  {
    Pad2(Hour12(h)) + ":" + Pad2(m) + " " + (if h < 12 then "AM" else "PM")
  }

  /** The clock rendering of a timestamp's time of day. */
  function Clock12(t: Timestamp): (s: string)
    ensures |s| == 8
  {
    Clock12Of(HourOf(t), MinuteOf(t))
  }

  /** Reads an `%I:%M %p` string back into a 24-hour (hour, minute) pair. */
  function ParseClock12(s: string): Option<(nat, nat)> {
    if |s| == 8 && IsDigits(s[0..2]) && s[2] == ':' && IsDigits(s[3..5]) && s[5] == ' '
       && (s[6] == 'A' || s[6] == 'P') && s[7] == 'M'
    then
      var h12 := ParseDigits(s[0..2]);
      var m := ParseDigits(s[3..5]);
      if 1 <= h12 <= 12 && m < 60 then
        var h := if s[6] == 'A' then h12 % 12 else h12 % 12 + 12;
        Some((h, m))
      else None
    else None
  }

  /** The 12-hour rendering loses nothing: hour and minute are recovered exactly,
      so in particular AM/PM and the 12 o'clock cases are distinguished. */
  lemma Clock12RoundTrip(h: nat, m: nat)
    requires h < 24 && m < 60
    ensures ParseClock12(Clock12Of(h, m)) == Some((h, m))
  {
    var s := Clock12Of(h, m);
    assert s[0..2] == Pad2(Hour12(h));
    assert s[3..5] == Pad2(m);
  }

  /** The clock text of a timestamp reads back as that timestamp's hour and minute. */
  lemma Clock12ReadBack(t: Timestamp)
    ensures ParseClock12(Clock12(t)) == Some((HourOf(t), MinuteOf(t)))
  {
    Clock12RoundTrip(HourOf(t), MinuteOf(t));
  }

  /** Midnight is 12 AM, noon is 12 PM, 13:00 is 01 PM. */
  lemma Clock12Examples()
    ensures Clock12Of(0, 0) == "12:00 AM"
    ensures Clock12Of(12, 0) == "12:00 PM"
    ensures Clock12Of(13, 0) == "01:00 PM"
    ensures Clock12Of(23, 59) == "11:59 PM"
  {
  }
}

=== FILE: wrappers.dfy ===
/** Optional values and success/failure results, used for nullable columns and error replies. */
module Wrappers {

  /** A value that may be absent (Python's `Optional[...]` / `None`). */
  datatype Option<+T> = None | Some(value: T) {

    /** The wrapped value, or `default` when absent. */
    function GetOr(default: T): T {
      match this
      case Some(v) => v
      case None => default
    }
  }

  /** Either a successful value or an error describing why the operation was refused. */
  datatype Result<+R, +E> = Success(value: R) | Failure(error: E)
}
